=== FILE: README.md ===
# Workout tracker: store, plan catalog and page statistics in Dafny

This project models the data and derivation layer of a browser workout tracker.

- **The plan catalog** (`lib/workouts.ts`) is a constant table of four day plans, each scheduled on one weekday. It has a lookup by weekday and a lookup by plan type.
- **The session store** (`lib/storage.ts`) holds two persisted lists: workout sessions and body-stat records.
  - Sessions are upserted by `id` and body stats by `date`.
  - The store answers by-date and by-type queries, the most recent session of a type, the day streak and the weekly count.
- **The statistics the history and progress pages compute** from the stored sessions:
  - the newest-first history;
  - session volume and completed-set counts;
  - the exercise chips;
  - the per-date volume chart and its maximum;
  - the total-workout count;
  - the weight history;
  - the guarded body-stat save.

Modules follow the source files:

| module | file | models |
|---|---|---|
| `Wrappers` | wrappers.dfy | `Option`, for `undefined` / `null` results |
| `Seqs` | seqs.dfy | `filter`, `findIndex`, `find`, and the replace-or-append upsert |
| `Sorting` | sorting.dfy | `Array.prototype.sort` with a key comparator, which is stable |
| `Workouts` | workouts.dfy | `lib/workouts.ts` |
| `Storage` | storage.dfy | `lib/storage.ts` |
| `History` | history.dfy | the computations in `app/history/page.tsx` |
| `Progress` | progress.dfy | the computations in `app/progress/page.tsx` |

Modelling choices:

- **Dates.** A calendar date (`YYYY-MM-DD`) is an integer day number counted from 1970-01-01, which was a Thursday. So the weekday of day `d` is `(d + 4) % 7`, with 0 = Sunday. "Today" is always a parameter.
- **The store.** It is a value: `Store` has one optional list per storage key. Every query takes the list that `getWorkouts()` returns.
- **Numbers.** Weights are exact `real`s and reps are `int`s.
- **Sort direction.** The comparator `(a, b) => b.date - a.date` is modelled as a stable ascending sort on the key `-date`.

Where the code behaves differently from what a reader might expect, the model follows the code:

- **Tie-break.** One might expect the most recently saved session to win when two completed sessions of one type share the latest date. It does not. The stable newest-first sort keeps store order among equal dates, so `getLastWorkoutByType` returns the one stored first. `Storage.LastWorkoutTieBreak` states that.
- **Corrupt data.** Only a missing window or a missing (or empty) value falls back to an empty list. A corrupt value does not: `JSON.parse` errors are not caught (`lib/storage.ts:37`). The model has no corrupt-store state and claims no tolerance for one.
- **Rest days.** Wednesday and Saturday are not the only days without a plan. Sunday (0) has none either: the plans sit on days 1, 2, 4 and 5.

## Model

| member | source | states |
|---|---|---|
| `Workouts.Catalog` | lib/workouts.ts:19-67 | The table has four plans on weekdays 1, 2, 4 and 5, in that order. Weekdays and plan ids are pairwise distinct, and every plan type has a plan. Every plan lists at least one exercise, every exercise has `defaultSets > 0`, and exercise ids are distinct within each plan. |
| `Workouts.PlanForWeekday` | lib/workouts.ts:69-73 | A plan is returned iff the weekday is 1, 2, 4 or 5, so 0, 3 and 6 give null. A returned plan is a catalog entry scheduled on that weekday. |
| `Workouts.PlanForWeekdayUnique` | lib/workouts.ts:71 | Any catalog entry scheduled on the weekday is exactly the plan the lookup returns. |
| `Workouts.PlanById` | lib/workouts.ts:75-77 | The lookup never fails for a valid plan type. It returns a catalog entry with that id. |
| `Workouts.PlanByIdUnique` | lib/workouts.ts:76 | Any catalog entry with the id is exactly the plan the lookup returns, so each plan type has exactly one plan. |
| `Workouts.PlannedSets` | app/page.tsx:22 | No ensures of its own. `PlannedSetsPositive` and `TodayPlannedSetsValues` pin it: at least the number of exercises when every `defaultSets` is positive, and 17, 13, 15 and 13 over the four catalog plans. |
| `Workouts.TodayPlannedSets` | app/page.tsx:22 | The planned-set total is positive iff the weekday has a plan, and 0 on rest days. |
| `Workouts.TodayPlannedSetsValues` | app/page.tsx:22 | The total of `defaultSets` over the day's plan is 17 on Monday, 13 on Tuesday, 15 on Thursday and 13 on Friday. It is 0 on every other day. |
| `Workouts.DayTypeNameInjective` | lib/workouts.ts:2 | The four plan types are stored under four distinct strings. |
| `Seqs.FirstIndex` | lib/storage.ts:42 | `findIndex` gives nothing iff no element matches; otherwise it gives the first matching index. The `>= 0` test at lib/storage.ts:44 and 80 is the `Some` case. |
| `Seqs.Find` | lib/workouts.ts:71 | `find` returns nothing iff no element matches; otherwise it returns the element at the first matching index. |
| `Storage.SaveWorkout` | lib/storage.ts:40-51 | If the id is already stored, the session replaces the first entry with that id at the same index: the length is unchanged and every other entry is kept. Otherwise it is appended and the length grows by 1. The body-stat slot is untouched. |
| `Storage.SaveWorkoutKeepsIdsUnique` | lib/storage.ts:40-51 | If ids were unique before a save, they are unique after it, and the saved session is the only entry with its id. |
| `Storage.SaveWorkoutOverwrite` | lib/storage.ts:40-51 | Saving two sessions with the same id equals saving only the second. Saving a session twice equals saving it once. |
| `Storage.SaveBodyStats` | lib/storage.ts:76-87 | Upsert keyed on `date`: the record replaces the first record of its date in place, or is appended. The session slot is untouched. |
| `Storage.SaveBodyStatsKeepsDatesUnique` | lib/storage.ts:76-87 | If dates were unique before a save, they are unique after it, and the saved record is the only one with its date. |
| `Storage.SaveBodyStatsOverwrite` | lib/storage.ts:76-87 | Two saves for the same date equal a single save of the second record. |
| `Storage.WorkoutByDate` | lib/storage.ts:53-56 | Absent iff no stored session (completed or not) has the date; otherwise it is the first stored session on that date. |
| `Storage.CompletedSessions` | app/progress/page.tsx:32 | `filter(w => w.completed)` keeps exactly the completed stored sessions and never grows the list. |
| `Storage.WorkoutsByType` | lib/storage.ts:58-63 | The result holds exactly the completed sessions of the type, each as often as it is stored, ordered newest first. |
| `Storage.WorkoutsByTypeDisjoint` | lib/storage.ts:58-63 | The per-type lists of two different plan types share no session. |
| `Sorting.SortBy` | lib/storage.ts:62 | The comparator sorts: the result is ordered by its key and is a permutation of the input (same multiset, same length). Newest first at lib/storage.ts:62 and 90-92, app/history/page.tsx:14 and app/progress/page.tsx:91; ascending dates at app/progress/page.tsx:43. `SortByStable` adds the order of equal keys. |
| `Sorting.SortByStable` | lib/storage.ts:62 | For each date, the sort keeps the sessions of that date in their store order. |
| `Storage.LastWorkoutByType` | lib/storage.ts:65-68 | Absent iff no completed session of the type is stored. Otherwise it is a stored completed session of that type, dated no earlier than every other one. |
| `Storage.LastWorkoutTieBreak` | lib/storage.ts:58-68 | With any completed session of the type stored, a session is returned. Among the sessions of that type on the latest date, it is the first in store order. |
| `Storage.GetStreak` | lib/storage.ts:89-116 | The result satisfies `IsStreak`. It never exceeds 30 and is 0 when no session is completed. The loop invariants carry the run of consecutive days found so far. |
| `Storage.StreakUnique` | lib/storage.ts:100-113 | `IsStreak` determines the count. Today adds 1 if trained and is skipped otherwise; the rest is the run of consecutive trained days ending yesterday, capped at the window. |
| `Storage.StreakTodayAndTwoBefore` | lib/storage.ts:105-112 | With sessions today and on the two days before, and none earlier, the streak is 3. |
| `Storage.StreakSkipsToday` | lib/storage.ts:107 | With no session today and sessions on each of the five days before, the streak is 5. |
| `Storage.StreakStopsAtGap` | lib/storage.ts:110-111 | With sessions on day 0 and day 2 but not day 1, the streak is 1. |
| `Storage.StreakCappedAtWindow` | lib/storage.ts:100 | With sessions on each of the 30 days ending today, the streak is 30, whatever lies before the window. |
| `Storage.WeekStart` | lib/storage.ts:121-123 | The week starts on a Sunday, at most 6 days before today. |
| `Storage.WorkoutsThisWeek` | lib/storage.ts:118-126 | The count is at most the number of completed sessions. It equals that number iff every completed session is dated on or after the week start. |
| `Storage.WorkoutsThisWeekAppend` | lib/storage.ts:125 | One more stored session raises the count by 1 iff it is completed and dated on or after the most recent Sunday; otherwise the count is unchanged. |
| `Storage.WorkoutsThisWeekBoundary` | lib/storage.ts:122-125 | A completed session on this week's Sunday counts. One on the Saturday before does not. |
| `Storage.EmptyStoreIsEmpty` | lib/storage.ts:34-38 | A store never written reads as two empty lists. Over it there is no last session, the weekly count is 0 and the streak is 0. |
| `History.HistoryList` | app/history/page.tsx:12-14 | The list holds exactly the completed sessions, each as often as stored, newest first. Its length is the number of completed sessions. |
| `History.TotalVolume` | app/history/page.tsx:27-31 | No ensures of its own. `TotalVolumeIsSumOverAllSets` and `VolumeIgnoresCompletion` pin it: Σ weight×reps over every set, whether completed or not. The same reduce computes the chart volume at app/progress/page.tsx:36-38. |
| `History.TotalVolumeIsSumOverAllSets` | app/history/page.tsx:27-31 | The session volume equals Σ weight×reps over the flattened list of every set of every exercise. |
| `History.VolumeIgnoresCompletion` | app/history/page.tsx:27-31 | Changing which sets are marked completed leaves the volume unchanged, so uncompleted sets count. |
| `History.TotalVolumeNonNegative` | app/history/page.tsx:27-31 | The volume is non-negative when all weights and reps are. |
| `History.VolumeExample` | app/history/page.tsx:29 | Sets of 10×5 (completed) and 20×0 (not completed) give a volume of 50. |
| `History.CompletedSets` | app/history/page.tsx:33-37 | The completed-set count is at most the number of sets in the session. |
| `History.CompletedSetsIsCountOverAllSets` | app/history/page.tsx:33-37 | The per-exercise counts sum to the number of completed sets in the flattened set list. |
| `History.ExerciseChip` | app/history/page.tsx:81-86 | `setsCompleted` is the number of indices whose set is completed, at most `totalSets = len(sets)`. The indicator is "done" iff `setsCompleted == totalSets`, which holds iff every set is completed. |
| `History.SessionChips` | app/history/page.tsx:79-96 | At most 4 chips, namely min(4, len) of them, for the first exercises in order. A "+n more" label appears iff there are more than 4 exercises, with `n > 0` and chips + `n` = len. |
| `Progress.AddVolume` | app/progress/page.tsx:39 | For the session's date, the value read back grows by the session volume; every other date's value is unchanged. The date set gains that date, and dates stay distinct. |
| `Progress.GroupByDate` | app/progress/page.tsx:35-40 | No ensures of its own. It folds `AddVolume` over the completed sessions in store order. `GroupByDateSpec` pins the result: distinct dates, exactly the completed dates, each with its `DateVolume`. |
| `Progress.GroupByDateSpec` | app/progress/page.tsx:32-40 | Grouping gives distinct dates, exactly the dates of completed sessions. Each date's value is the summed volume of the completed sessions on it (`DateVolume`). |
| `Progress.Latest` | app/progress/page.tsx:44 | For n ≥ 1, `slice(-n)` keeps min(n, len) elements, the last ones, in order. For n = 0 it keeps the whole list, since `slice(-0)` is `slice(0)`. |
| `Progress.VolumeData` | app/progress/page.tsx:31-45 | At most 10 entries, strictly ascending by date. Each entry is a date with a completed session, carrying that date's summed completed volume. A completed session's date is missing only when 10 later dates fill the chart. |
| `Progress.MaxVolume` | app/progress/page.tsx:47 | The result is at least 1 and at least every chart value. It is either 1 or one of the values. |
| `Progress.ChartTotalBounds` | app/progress/page.tsx:132 | With non-negative volumes, the summed chart total is non-negative and at least every single bar. |
| `Progress.TotalWorkouts` | app/progress/page.tsx:127 | The figure is at most the stored count. It is 0 iff no session is completed, and equals the stored count iff every session is. |
| `Progress.TotalWorkoutsIsHistoryLength` | app/progress/page.tsx:127 | The figure equals the length of the history list, the "n workouts completed" of the history page. |
| `Progress.RecentStats` | app/progress/page.tsx:90-92 | The weight history holds min(5, len) stored records, newest first. No record appears more often than it is stored. A record left out means 5 are shown and none of them is older than it. |
| `Progress.HandleSaveStats` | app/progress/page.tsx:15-28 | With an empty weight input the store is unchanged. Otherwise the result is `saveBodyStats` of today's record (waist defaulting to 0). So the record is in the stats, sessions are untouched, the list grows by at most one, and every other record is kept by the upsert. |

## Left out

- `localStorage`, `JSON.parse` / `JSON.stringify` and the `typeof window` check (`lib/storage.ts:35-37, 50, 71-73, 86`). The store is a value. A slot that is None stands for "no window" or "no value under the key".
- Throwing writes and corrupt data. On the server, `saveWorkout` and `saveBodyStats` would throw when they write (`lib/storage.ts:50, 86`); this is not modelled. Parse failures of stored data are not modelled either, since the code does not catch them.
- The unused `REST_TIMER` key (`lib/storage.ts:31`).
- `Date` objects and time zones. The model uses exact day numbers, which assumes three things hold:
  - `getStreak`'s local-midnight date converted with `toISOString` (`lib/storage.ts:97-103`) names the local calendar day;
  - `new Date(w.date)` and the local `startOfWeek` (`lib/storage.ts:120-125`) compare as calendar days;
  - `getTodayWorkout` and `handleSaveStats` read the same "today" the model is given.

  Outside UTC these can be off by a day.
- The sort inside `getStreak` (`lib/storage.ts:90-92`). `some` does not depend on order, so it does not affect the result.
- `NaN` from invalid date strings in the sort comparators, and `NaN` or float rounding in volumes, `parseFloat`, `Math.max` and sums. Weights are exact reals.
- Streak examples run through the method. `GetStreak` is a method with a loop, so the examples are stated about `IsStreak` instead. `StreakUnique` shows that `IsStreak` has a unique value.
- Formatting and rendering:
  - `formatDate`, `toLocaleString`, `toFixed` and the `/ 1000` of the "Total Volume" card;
  - the bar heights and `date.slice(5)` labels;
  - the `volumeData.length > 1` gate;
  - chip names (`exInfo?.name.split(' ')[0]`) and the plan-name fallback (`app/history/page.tsx:69, 80, 87`);
  - all JSX, React state, effects and navigation, including `app/layout.tsx`.
- The in-place mutation of React state by `stats.sort` (`app/progress/page.tsx:91`). `Progress.RecentStats` models the sorted copy that is shown.
- `app/workout/[day]/page.tsx` is not part of this model. That covers session initialisation from a plan, the `{dayType}-{date}` session ids, the previous-weight lookup and the rest timer. Session ids are therefore free strings here.

=== FILE: history.dfy ===
/** The statistics the history page derives from the stored sessions: the
    newest-first list of completed sessions, each session's volume and
    completed-set count, and the exercise chips shown per session. */
module History {
  import opened Wrappers
  import Seqs
  import Sorting
  import opened Storage

  /** The completed sessions, each as often as it is stored, newest first. */
  function HistoryList(ws: seq<Session>): (r: seq<Session>)
    ensures NewestFirst(r)
    ensures forall w :: multiset(r)[w] == if w.completed then multiset(ws)[w] else 0
    ensures forall w :: w in r <==> w in ws && w.completed
    ensures |r| == |CompletedSessions(ws)|
  {
    var done := CompletedSessions(ws);
    Seqs.FilterMultiset(ws, IsCompleted);
    var r := Sorting.SortBy(done, NewestFirstKey);
    assert forall w :: w in r <==> w in multiset(done);
    r
  }

  function SetVolume(s: SetLog): real {
    s.weight * s.reps as real
  }

  /** The inner reduce: the volume of a run of sets. */
  function SetsVolume(sets: seq<SetLog>): real {
    if |sets| == 0 then 0.0 else SetVolume(sets[0]) + SetsVolume(sets[1..])
  }

  /** The outer reduce: the volume of a run of exercise logs. */
  function ExercisesVolume(exercises: seq<ExerciseLog>): real {
    if |exercises| == 0 then 0.0
    else SetsVolume(exercises[0].sets) + ExercisesVolume(exercises[1..])
  }

  /** `getTotalVolume`. */
  function TotalVolume(session: Session): real {
    ExercisesVolume(session.exercises)
  }

  /** Every set of every exercise, in order. */
  function AllSets(exercises: seq<ExerciseLog>): seq<SetLog> {
    if |exercises| == 0 then [] else exercises[0].sets + AllSets(exercises[1..])
  }

  lemma {:induction false} SetsVolumeConcat(a: seq<SetLog>, b: seq<SetLog>)
    ensures SetsVolume(a + b) == SetsVolume(a) + SetsVolume(b)
  {
    if |a| == 0 {
      assert a + b == b;
    } else {
      assert (a + b)[1..] == a[1..] + b;
      SetsVolumeConcat(a[1..], b);
    }
  }

  /** The session volume is the sum of weight times reps over all of its sets,
      whichever exercise they belong to and whether or not they are completed. */
  lemma {:induction false} TotalVolumeIsSumOverAllSets(session: Session)
    ensures TotalVolume(session) == SetsVolume(AllSets(session.exercises))
  {
    ExercisesVolumeIsSumOverAllSets(session.exercises);
  }

  lemma {:induction false} ExercisesVolumeIsSumOverAllSets(exercises: seq<ExerciseLog>)
    ensures ExercisesVolume(exercises) == SetsVolume(AllSets(exercises))
  {
    if |exercises| > 0 {
      ExercisesVolumeIsSumOverAllSets(exercises[1..]);
      SetsVolumeConcat(exercises[0].sets, AllSets(exercises[1..]));
    }
  }

  /** No negative weight or rep count in any set. */
  predicate NonNegativeSets(sets: seq<SetLog>) {
    forall i :: 0 <= i < |sets| ==> sets[i].weight >= 0.0 && sets[i].reps >= 0
  }

  lemma {:induction false} SetsVolumeNonNegative(sets: seq<SetLog>)
    requires NonNegativeSets(sets)
    ensures SetsVolume(sets) >= 0.0
  {
    if |sets| > 0 {
      assert NonNegativeSets(sets[1..]);
      SetsVolumeNonNegative(sets[1..]);
    }
  }

  /** With non-negative weights and reps the volume is non-negative. */
  lemma TotalVolumeNonNegative(session: Session)
    requires NonNegativeSets(AllSets(session.exercises))
    ensures TotalVolume(session) >= 0.0
  {
    TotalVolumeIsSumOverAllSets(session);
    SetsVolumeNonNegative(AllSets(session.exercises));
  }

  /** The sets with every completion flag replaced by `done`. */
  function MarkSets(sets: seq<SetLog>, done: bool): (r: seq<SetLog>)
    ensures |r| == |sets|
    ensures forall i :: 0 <= i < |r| ==> r[i] == sets[i].(completed := done)
  {
    if |sets| == 0 then [] else [sets[0].(completed := done)] + MarkSets(sets[1..], done)
  }

  function MarkExercises(exercises: seq<ExerciseLog>, done: bool): (r: seq<ExerciseLog>)
    ensures |r| == |exercises|
    ensures forall i :: 0 <= i < |r| ==> r[i] == exercises[i].(sets := MarkSets(exercises[i].sets, done))
  {
    if |exercises| == 0 then []
    else [exercises[0].(sets := MarkSets(exercises[0].sets, done))] + MarkExercises(exercises[1..], done)
  }

  /** Volume does not depend on which sets are marked completed. */
  lemma {:induction false} VolumeIgnoresCompletion(session: Session, done: bool)
    ensures TotalVolume(session.(exercises := MarkExercises(session.exercises, done))) == TotalVolume(session)
  {
    ExercisesVolumeIgnoresCompletion(session.exercises, done);
  }

  lemma {:induction false} ExercisesVolumeIgnoresCompletion(exercises: seq<ExerciseLog>, done: bool)
    ensures ExercisesVolume(MarkExercises(exercises, done)) == ExercisesVolume(exercises)
  {
    if |exercises| > 0 {
      SetsVolumeIgnoresCompletion(exercises[0].sets, done);
      ExercisesVolumeIgnoresCompletion(exercises[1..], done);
      assert MarkExercises(exercises, done)[1..] == MarkExercises(exercises[1..], done);
    }
  }

  lemma {:induction false} SetsVolumeIgnoresCompletion(sets: seq<SetLog>, done: bool)
    ensures SetsVolume(MarkSets(sets, done)) == SetsVolume(sets)
  {
    if |sets| > 0 {
      SetsVolumeIgnoresCompletion(sets[1..], done);
      assert MarkSets(sets, done)[1..] == MarkSets(sets[1..], done);
    }
  }

  /** 10 x 5 plus 20 x 0, the second set not completed, is 50. */
  lemma VolumeExample(id: string, date: Day, dayType: string)
    ensures TotalVolume(Session(id, date, dayType,
              [ExerciseLog("bench-press", [SetLog(5, 10.0, true), SetLog(0, 20.0, false)])], true)) == 50.0
  {
  }

  predicate SetDone(s: SetLog) { s.completed }

  /** The sets of one exercise that are marked completed. */
  function CompletedCount(sets: seq<SetLog>): nat {
    |Seqs.Filter(sets, SetDone)|
  }

  /** `getCompletedSets`: the completed sets over all exercises of a session. */
  function CompletedSets(session: Session): (n: nat)
    ensures n <= |AllSets(session.exercises)|
  {
    CompletedSetsIsCountOverAllSets(session.exercises);
    Seqs.FilterMembers(AllSets(session.exercises), SetDone);
    ExercisesCompletedSets(session.exercises)
  }

  function ExercisesCompletedSets(exercises: seq<ExerciseLog>): nat {
    if |exercises| == 0 then 0
    else CompletedCount(exercises[0].sets) + ExercisesCompletedSets(exercises[1..])
  }

  /** The per-exercise counts add up to a count over the flattened set list. */
  lemma {:induction false} CompletedSetsIsCountOverAllSets(exercises: seq<ExerciseLog>)
    ensures ExercisesCompletedSets(exercises) == |Seqs.Filter(AllSets(exercises), SetDone)|
  {
    if |exercises| > 0 {
      CompletedSetsIsCountOverAllSets(exercises[1..]);
      Seqs.FilterConcat(exercises[0].sets, AllSets(exercises[1..]), SetDone);
    }
  }

  /** One exercise chip: how many of its sets are completed out of how many,
      and whether the indicator shows it as done. */
  datatype Chip = Chip(exerciseId: string, setsCompleted: nat, totalSets: nat, done: bool)

  function ExerciseChip(ex: ExerciseLog): (c: Chip)
    ensures c.exerciseId == ex.exerciseId && c.totalSets == |ex.sets|
    ensures c.setsCompleted <= c.totalSets
    ensures c.setsCompleted == |set i | 0 <= i < |ex.sets| && ex.sets[i].completed|
    ensures c.done <==> c.setsCompleted == c.totalSets
    ensures c.done <==> forall i :: 0 <= i < |ex.sets| ==> ex.sets[i].completed
  {
    var completed := CompletedCount(ex.sets);
    Seqs.FilterKeepsAll(ex.sets, SetDone);
    Seqs.FilterMembers(ex.sets, SetDone);
    Seqs.FilterLengthIsIndexCount(ex.sets, SetDone);
    assert Seqs.IndicesWhere(ex.sets, SetDone) == set i | 0 <= i < |ex.sets| && ex.sets[i].completed;
    Chip(ex.exerciseId, completed, |ex.sets|, completed == |ex.sets|)
  }

  /** The number of exercise chips shown per session. */
  const MaxChips: nat := 4

  /** The chips of a session and, when exercises are left over, the `n` of the
      "+n more" label. */
  datatype ChipRow = ChipRow(chips: seq<Chip>, more: Option<nat>)

  function SessionChips(session: Session): (row: ChipRow)
    ensures var exs := session.exercises;
      && |row.chips| <= MaxChips
      && |row.chips| == (if |exs| < MaxChips then |exs| else MaxChips)
      && (forall i :: 0 <= i < |row.chips| ==> row.chips[i] == ExerciseChip(exs[i]))
      && (row.more.Some? <==> |exs| > MaxChips)
      && (row.more.Some? ==> row.more.value > 0 && |row.chips| + row.more.value == |exs|)
  {
    var exs := session.exercises;
    var shown := if |exs| < MaxChips then exs else exs[..MaxChips];
    var chips := seq(|shown|, i requires 0 <= i < |shown| => ExerciseChip(shown[i]));
    ChipRow(chips, if |exs| > MaxChips then Some(|exs| - MaxChips) else None)
  }
}

=== FILE: progress.dfy ===
/** The statistics the progress page derives: the per-date volume series of
    the chart, its maximum, the completed-workout count, and the body-stat
    save behind the form's button. */
module Progress {
  import opened Wrappers
  import Seqs
  import Sorting
  import opened Storage
  import History

  /** One chart entry: a date and the summed volume of that date. */
  datatype DayVolume = DayVolume(date: Day, volume: real)

  function DayDate(e: DayVolume): int { e.date }

  function Dates(s: seq<DayVolume>): set<Day> {
    set i | 0 <= i < |s| :: s[i].date
  }

  predicate DatesUnique(s: seq<DayVolume>) {
    Seqs.KeysUnique(s, DayDate)
  }

  /** The volume the entries hold for `d`; 0 when there is none, as in the
      `byDate[d] || 0` read. */
  function VolumeOn(s: seq<DayVolume>, d: Day): real {
    if |s| == 0 then 0.0
    else if s[0].date == d then s[0].volume
    else VolumeOn(s[1..], d)
  }

  lemma DatesCons(x: DayVolume, s: seq<DayVolume>)
    ensures Dates([x] + s) == {x.date} + Dates(s)
  {
    var t := [x] + s;
    forall d | d in Dates(t) ensures d in {x.date} + Dates(s) {
      var i :| 0 <= i < |t| && t[i].date == d;
      if i > 0 {
        assert s[i - 1] == t[i];
      }
    }
    forall d | d in {x.date} + Dates(s) ensures d in Dates(t) {
      if d == x.date {
        assert t[0].date == d;
      } else {
        var i :| 0 <= i < |s| && s[i].date == d;
        assert t[i + 1].date == d;
      }
    }
  }

  /** `byDate[d] = (byDate[d] || 0) + v` on entries kept in insertion order:
      the entry for `d` grows by `v`, or a new entry is appended. */
  function AddVolume(acc: seq<DayVolume>, d: Day, v: real): (r: seq<DayVolume>)
    ensures forall x :: VolumeOn(r, x) == VolumeOn(acc, x) + (if x == d then v else 0.0)
    ensures Dates(r) == Dates(acc) + {d}
    ensures DatesUnique(acc) ==> DatesUnique(r)
  {
    if |acc| == 0 then [DayVolume(d, v)]
    else
      assert acc == [acc[0]] + acc[1..];
      DatesCons(acc[0], acc[1..]);
      DatesUniqueCons(acc[0], acc[1..]);
      if acc[0].date == d then
        var r := [DayVolume(d, acc[0].volume + v)] + acc[1..];
        assert r[1..] == acc[1..];
        DatesCons(r[0], acc[1..]);
        DatesUniqueCons(r[0], acc[1..]);
        r
      else
        var rest := AddVolume(acc[1..], d, v);
        var r := [acc[0]] + rest;
        assert r[1..] == rest;
        DatesCons(acc[0], rest);
        DatesUniqueCons(acc[0], rest);
        r
  }

  /** Dates stay unique under a new head exactly when the head's date is new. */
  lemma DatesUniqueCons(x: DayVolume, s: seq<DayVolume>)
    ensures DatesUnique([x] + s) <==> x.date !in Dates(s) && DatesUnique(s)
  {
    var t := [x] + s;
    assert forall k :: 0 <= k < |s| ==> t[k + 1] == s[k];
    if DatesUnique(t) {
      forall k | 0 <= k < |s| ensures s[k].date != x.date {
        assert DayDate(t[0]) != DayDate(t[k + 1]);
      }
    }
  }

  /** The `forEach` over the completed sessions, in store order. */
  function GroupByDate(done: seq<Session>): seq<DayVolume> {
    if |done| == 0 then []
    else
      var w := done[|done| - 1];
      AddVolume(GroupByDate(done[..|done| - 1]), w.date, History.TotalVolume(w))
  }

  /** Reference definition: the summed volume of the completed sessions dated `d`. */
  function DateVolume(ws: seq<Session>, d: Day): real {
    if |ws| == 0 then 0.0
    else
      var w := ws[|ws| - 1];
      DateVolume(ws[..|ws| - 1], d) + (if w.completed && w.date == d then History.TotalVolume(w) else 0.0)
  }

  function CompletedDates(ws: seq<Session>): set<Day> {
    set w | w in ws && w.completed :: w.date
  }

  lemma CompletedSessionsSnoc(pre: seq<Session>, w: Session)
    ensures CompletedSessions(pre + [w]) == CompletedSessions(pre) + (if w.completed then [w] else [])
  {
    Seqs.FilterConcat(pre, [w], IsCompleted);
    assert Seqs.Filter([w], IsCompleted) == if w.completed then [w] else [];
  }

  lemma CompletedDatesSnoc(pre: seq<Session>, w: Session)
    ensures CompletedDates(pre + [w]) == CompletedDates(pre) + (if w.completed then {w.date} else {})
  {
    var ws := pre + [w];
    forall d | d in CompletedDates(ws)
      ensures d in CompletedDates(pre) + (if w.completed then {w.date} else {})
    {
      var u :| u in ws && u.completed && u.date == d;
      if u != w {
        assert u in pre;
      }
    }
    assert w in ws;
    assert forall u :: u in pre ==> u in ws;
  }

  lemma GroupByDateSnoc(c: seq<Session>, w: Session)
    ensures GroupByDate(c + [w]) == AddVolume(GroupByDate(c), w.date, History.TotalVolume(w))
  {
    assert (c + [w])[..|c|] == c;
  }

  lemma DateVolumeSnoc(pre: seq<Session>, w: Session, d: Day)
    ensures DateVolume(pre + [w], d)
            == DateVolume(pre, d) + (if w.completed && w.date == d then History.TotalVolume(w) else 0.0)
  {
    assert (pre + [w])[..|pre|] == pre;
  }

  /** The grouping of the completed sessions of `ws` has one entry per date
      with a completed session, holding the summed volume of those sessions. */
  ghost predicate GroupedCorrectly(ws: seq<Session>) {
    var g := GroupByDate(CompletedSessions(ws));
    && DatesUnique(g)
    && Dates(g) == CompletedDates(ws)
    && forall d :: VolumeOn(g, d) == DateVolume(ws, d)
  }

  lemma GroupByDateStep(pre: seq<Session>, w: Session)
    requires GroupedCorrectly(pre)
    ensures GroupedCorrectly(pre + [w])
  {
    var ws := pre + [w];
    var g, gp := GroupByDate(CompletedSessions(ws)), GroupByDate(CompletedSessions(pre));
    CompletedSessionsSnoc(pre, w);
    CompletedDatesSnoc(pre, w);
    if w.completed {
      GroupByDateSnoc(CompletedSessions(pre), w);
      assert g == AddVolume(gp, w.date, History.TotalVolume(w));
    } else {
      assert CompletedSessions(pre) + [] == CompletedSessions(pre);
      assert g == gp;
    }
    forall d ensures VolumeOn(g, d) == DateVolume(ws, d) {
      DateVolumeSnoc(pre, w, d);
    }
  }

  /** Grouping yields one entry per date that has a completed session, holding
      the summed volume of the completed sessions of that date. */
  lemma {:induction false} GroupByDateSpec(ws: seq<Session>)
    ensures DatesUnique(GroupByDate(CompletedSessions(ws)))
    ensures Dates(GroupByDate(CompletedSessions(ws))) == CompletedDates(ws)
    ensures forall d :: VolumeOn(GroupByDate(CompletedSessions(ws)), d) == DateVolume(ws, d)
  {
    GroupedByInduction(ws);
  }

  lemma {:induction false} GroupedByInduction(ws: seq<Session>)
    ensures GroupedCorrectly(ws)
  {
    if |ws| == 0 {
      assert CompletedDates(ws) == {};
    } else {
      var pre, w := ws[..|ws| - 1], ws[|ws| - 1];
      assert ws == pre + [w];
      GroupedByInduction(pre);
      GroupByDateStep(pre, w);
    }
  }

  /** With unique dates, each entry's own volume is the one read back for its date. */
  lemma {:induction false} VolumeOnUnique(s: seq<DayVolume>, i: int)
    requires DatesUnique(s) && 0 <= i < |s|
    ensures VolumeOn(s, s[i].date) == s[i].volume
  {
    if i > 0 {
      assert s == [s[0]] + s[1..];
      DatesUniqueCons(s[0], s[1..]);
      assert s[1..][i - 1] == s[i];
      VolumeOnUnique(s[1..], i - 1);
    }
  }

  /** The number of chart entries. */
  const ChartDays: nat := 10

  /** `slice(-n)`: the last `n` elements, or all of them when there are fewer.
      Since `-0` is `0`, `slice(-0)` is the whole sequence. */
  function Latest<T>(s: seq<T>, n: nat): (r: seq<T>)
    ensures |r| == if n == 0 || |s| < n then |s| else n
    ensures forall i :: 0 <= i < |r| ==> r[i] == s[|s| - |r| + i]
  {
    if n == 0 || |s| <= n then s else s[|s| - n..]
  }

  /** `volumeData`: one entry per date with a completed session, holding the
      summed volume of that date, ascending by date, keeping only the
      `ChartDays` latest dates. */
  function VolumeData(ws: seq<Session>): (r: seq<DayVolume>)
    ensures |r| <= ChartDays
    ensures forall i, j :: 0 <= i < j < |r| ==> r[i].date < r[j].date
    ensures forall i :: 0 <= i < |r| ==> HasCompletedOn(ws, r[i].date) && r[i].volume == DateVolume(ws, r[i].date)
    ensures forall w :: w in ws && w.completed ==> w.date in Dates(r) || (|r| == ChartDays && w.date < r[0].date)
  {
    var g := GroupByDate(CompletedSessions(ws));
    GroupByDateSpec(ws);
    var sorted := Sorting.SortBy(g, DayDate);
    Seqs.KeysUniquePermutation(g, sorted, DayDate);
    SortedUniqueIsStrict(sorted);
    LatestEntries(ws, g, sorted);
    Latest(sorted, ChartDays)
  }

  lemma SortedUniqueIsStrict(s: seq<DayVolume>)
    requires Sorting.SortedBy(s, DayDate) && DatesUnique(s)
    ensures forall i, j :: 0 <= i < j < |s| ==> s[i].date < s[j].date
  {
    forall i, j | 0 <= i < j < |s| ensures s[i].date < s[j].date {
      assert DayDate(s[i]) <= DayDate(s[j]) && DayDate(s[i]) != DayDate(s[j]);
    }
  }

  lemma LatestEntries(ws: seq<Session>, g: seq<DayVolume>, sorted: seq<DayVolume>)
    requires g == GroupByDate(CompletedSessions(ws))
    requires DatesUnique(g) && Dates(g) == CompletedDates(ws)
    requires forall d :: VolumeOn(g, d) == DateVolume(ws, d)
    requires multiset(sorted) == multiset(g)
    requires forall i, j :: 0 <= i < j < |sorted| ==> sorted[i].date < sorted[j].date
    ensures var r := Latest(sorted, ChartDays);
      && (forall i :: 0 <= i < |r| ==> HasCompletedOn(ws, r[i].date) && r[i].volume == DateVolume(ws, r[i].date))
      && (forall w :: w in ws && w.completed ==> w.date in Dates(r) || (|r| == ChartDays && w.date < r[0].date))
  {
    var r := Latest(sorted, ChartDays);
    var off := |sorted| - |r|;
    forall i | 0 <= i < |r|
      ensures HasCompletedOn(ws, r[i].date) && r[i].volume == DateVolume(ws, r[i].date)
    {
      assert r[i] == sorted[off + i];
      assert r[i] in multiset(g);
      var p :| 0 <= p < |g| && g[p] == r[i];
      VolumeOnUnique(g, p);
      assert r[i].date in Dates(g);
    }
    forall w | w in ws && w.completed
      ensures w.date in Dates(r) || (|r| == ChartDays && w.date < r[0].date)
    {
      assert w.date in CompletedDates(ws);
      var p :| 0 <= p < |g| && g[p].date == w.date;
      assert g[p] in multiset(sorted);
      var q :| 0 <= q < |sorted| && sorted[q] == g[p];
      LatestCovers(sorted, q);
    }
  }

  /** A date of a strictly ascending list is either among its latest
      `ChartDays` entries or earlier than all of them. */
  lemma LatestCovers(sorted: seq<DayVolume>, q: nat)
    requires q < |sorted|
    requires forall i, j :: 0 <= i < j < |sorted| ==> sorted[i].date < sorted[j].date
    ensures var r := Latest(sorted, ChartDays);
      sorted[q].date in Dates(r) || (|r| == ChartDays && sorted[q].date < r[0].date)
  {
    var r := Latest(sorted, ChartDays);
    var off := |sorted| - |r|;
    if q >= off {
      assert r[q - off] == sorted[q];
    } else {
      assert r[0] == sorted[off];
    }
  }

  /** `maxVolume`: `Math.max` over the chart volumes and 1. */
  function MaxVolume(vd: seq<DayVolume>): (m: real)
    ensures m >= 1.0
    ensures forall i :: 0 <= i < |vd| ==> vd[i].volume <= m
    ensures m == 1.0 || exists i :: 0 <= i < |vd| && vd[i].volume == m
  {
    if |vd| == 0 then 1.0
    else
      var rest := MaxVolume(vd[1..]);
      assert forall i :: 1 <= i < |vd| ==> vd[i] == vd[1..][i - 1];
      if vd[0].volume > rest then vd[0].volume else rest
  }

  /** The "Total Volume" card before its formatting: the sum of the chart values. */
  function ChartTotal(vd: seq<DayVolume>): real {
    if |vd| == 0 then 0.0 else vd[0].volume + ChartTotal(vd[1..])
  }

  /** With non-negative volumes the card is non-negative and no bar exceeds it. */
  lemma {:induction false} ChartTotalBounds(vd: seq<DayVolume>)
    requires forall i :: 0 <= i < |vd| ==> vd[i].volume >= 0.0
    ensures ChartTotal(vd) >= 0.0
    ensures forall i :: 0 <= i < |vd| ==> vd[i].volume <= ChartTotal(vd)
  {
    if |vd| > 0 {
      assert forall i :: 1 <= i < |vd| ==> vd[i] == vd[1..][i - 1];
      ChartTotalBounds(vd[1..]);
    }
  }

  /** The number of body-stat records the weight history shows. */
  const HistoryRows: nat := 5

  function StatsNewestFirstKey(b: BodyStats): int { -b.date }

  /** The weight history: the stored records newest first, the first
      `HistoryRows` of them. */
  function RecentStats(stats: seq<BodyStats>): (r: seq<BodyStats>)
    ensures |r| == if |stats| < HistoryRows then |stats| else HistoryRows
    ensures StatsNewestFirst(r)
    ensures forall i :: 0 <= i < |r| ==> r[i] in stats
    ensures multiset(r) <= multiset(stats)
    ensures forall b :: b in stats && b !in r ==> |r| == HistoryRows && b.date <= r[|r| - 1].date
  {
    var sorted := Sorting.SortBy(stats, StatsNewestFirstKey);
    var n := if |sorted| < HistoryRows then |sorted| else HistoryRows;
    SortedStatsPrefix(stats, n);
    sorted[..n]
  }

  lemma SortedStatsPrefix(stats: seq<BodyStats>, n: nat)
    requires n == if |stats| < HistoryRows then |stats| else HistoryRows
    ensures var r := Sorting.SortBy(stats, StatsNewestFirstKey)[..n];
      && StatsNewestFirst(r)
      && (forall i :: 0 <= i < |r| ==> r[i] in stats)
      && multiset(r) <= multiset(stats)
      && (forall b :: b in stats && b !in r ==> |r| == HistoryRows && b.date <= r[|r| - 1].date)
  {
    var sorted := Sorting.SortBy(stats, StatsNewestFirstKey);
    var r := sorted[..n];
    assert StatsNewestFirst(r) by {
      SortedStatsNewestFirst(stats);
    }
    assert multiset(r) <= multiset(stats) by {
      Seqs.PrefixMultiset(sorted, n);
    }
    assert forall i :: 0 <= i < |r| ==> r[i] in stats by {
      Sorting.SortByMembers(stats, StatsNewestFirstKey);
    }
    StatsPrefixCovers(stats, n);
  }

  /** Sorting by `StatsNewestFirstKey` orders the records newest first. */
  lemma SortedStatsNewestFirst(stats: seq<BodyStats>)
    ensures StatsNewestFirst(Sorting.SortBy(stats, StatsNewestFirstKey))
  {
    var sorted := Sorting.SortBy(stats, StatsNewestFirstKey);
    forall i, j | 0 <= i < j < |sorted| ensures sorted[i].date >= sorted[j].date {
      assert StatsNewestFirstKey(sorted[i]) <= StatsNewestFirstKey(sorted[j]);
    }
  }

  /** A record left out of the first `n` sorted records is no newer than the
      last one kept, and is only left out when all `HistoryRows` are shown. */
  lemma StatsPrefixCovers(stats: seq<BodyStats>, n: nat)
    requires n == if |stats| < HistoryRows then |stats| else HistoryRows
    ensures var r := Sorting.SortBy(stats, StatsNewestFirstKey)[..n];
      forall b :: b in stats && b !in r ==> |r| == HistoryRows && b.date <= r[|r| - 1].date
  {
    var sorted := Sorting.SortBy(stats, StatsNewestFirstKey);
    SortedStatsNewestFirst(stats);
    Sorting.SortByMembers(stats, StatsNewestFirstKey);
    var r := sorted[..n];
    forall b | b in stats && b !in r ensures |r| == HistoryRows && b.date <= r[|r| - 1].date {
      var q :| 0 <= q < |sorted| && sorted[q] == b;
    }
  }

  /** The "Total Workouts" figure: the number of completed sessions. */
  function TotalWorkouts(ws: seq<Session>): (n: nat)
    ensures n <= |ws|
    ensures n == 0 <==> forall i :: 0 <= i < |ws| ==> !ws[i].completed
    ensures n == |ws| <==> forall i :: 0 <= i < |ws| ==> ws[i].completed
  {
    var done := CompletedSessions(ws);
    Seqs.FilterKeepsAll(ws, IsCompleted);
    assert forall i :: 0 <= i < |ws| && ws[i].completed ==> ws[i] in done;
    assert |done| > 0 ==> done[0] in ws && done[0].completed;
    |done|
  }

  /** The progress page's total and the history page's "n workouts completed"
      agree. */
  lemma TotalWorkoutsIsHistoryLength(ws: seq<Session>)
    ensures TotalWorkouts(ws) == |History.HistoryList(ws)|
  {
  }

  /** The body-stat form as read at save time: the raw weight text, and the
      `parseFloat` results of both inputs (None where the waist does not parse). */
  datatype StatsForm = StatsForm(weightText: string, weight: real, waist: Option<real>)

  /** `handleSaveStats`: nothing happens while the weight input is empty;
      otherwise today's record is upserted, a missing waist stored as 0. */
  function HandleSaveStats(st: Store, form: StatsForm, today: Day): (st': Store)
    ensures |form.weightText| == 0 ==> st' == st
    ensures |form.weightText| > 0 ==>
      && st' == SaveBodyStats(st, BodyStats(today, form.weight, form.waist.GetOr(0.0)))
      && st'.workouts == st.workouts
      && BodyStats(today, form.weight, form.waist.GetOr(0.0)) in BodyStatsList(st')
      && |BodyStatsList(st)| <= |BodyStatsList(st')| <= |BodyStatsList(st)| + 1
  {
    if |form.weightText| == 0 then st
    else SaveBodyStats(st, BodyStats(today, form.weight, form.waist.GetOr(0.0)))
  }
}

=== FILE: seqs.dfy ===
/** Generic sequence operations used by the store and the pages:
    `Array.prototype.filter`, `findIndex`, `find`, and the replace-or-append
    upsert that `saveWorkout` and `saveBodyStats` both perform. */
module Seqs {
  import opened Wrappers

  /** The elements of `s` satisfying `p`, in their original order. */
  function Filter<T>(s: seq<T>, p: T -> bool): seq<T> {
    if |s| == 0 then []
    else if p(s[0]) then [s[0]] + Filter(s[1..], p)
    else Filter(s[1..], p)
  }

  /** Filtering keeps exactly the satisfying elements and never lengthens. */
  lemma {:induction false} FilterMembers<T(!new)>(s: seq<T>, p: T -> bool)
    ensures |Filter(s, p)| <= |s|
    ensures forall x :: x in Filter(s, p) <==> x in s && p(x)
  {
    if |s| > 0 {
      FilterMembers(s[1..], p);
      assert s == [s[0]] + s[1..];
    }
  }

  /** Filtering keeps every satisfying element exactly as often as it occurs. */
  lemma {:induction false} FilterMultiset<T(!new)>(s: seq<T>, p: T -> bool)
    ensures forall x :: multiset(Filter(s, p))[x] == if p(x) then multiset(s)[x] else 0
  {
    if |s| > 0 {
      FilterMultiset(s[1..], p);
      assert s == [s[0]] + s[1..];
    }
  }

  /** Nothing is dropped exactly when every element satisfies `p`. */
  lemma {:induction false} FilterKeepsAll<T(!new)>(s: seq<T>, p: T -> bool)
    ensures |Filter(s, p)| == |s| <==> forall i :: 0 <= i < |s| ==> p(s[i])
  {
    if |s| > 0 {
      FilterKeepsAll(s[1..], p);
      FilterMembers(s[1..], p);
      assert forall i :: 1 <= i < |s| ==> s[i] == s[1..][i - 1];
    }
  }

  lemma {:induction false} FilterConcat<T(!new)>(a: seq<T>, b: seq<T>, p: T -> bool)
    ensures Filter(a + b, p) == Filter(a, p) + Filter(b, p)
  {
    if |a| == 0 {
      assert a + b == b;
    } else {
      assert (a + b)[0] == a[0];
      assert (a + b)[1..] == a[1..] + b;
      FilterConcat(a[1..], b, p);
    }
  }

  /** The indices of `s` whose element satisfies `p`. */
  function IndicesWhere<T>(s: seq<T>, p: T -> bool): set<int> {
    set i | 0 <= i < |s| && p(s[i])
  }

  /** Filtering keeps one element per satisfying index. */
  lemma {:induction false} FilterLengthIsIndexCount<T(!new)>(s: seq<T>, p: T -> bool)
    ensures |Filter(s, p)| == |IndicesWhere(s, p)|
  {
    if |s| > 0 {
      var pre, x := s[..|s| - 1], s[|s| - 1];
      assert s == pre + [x];
      FilterLengthIsIndexCount(pre, p);
      var last := if p(x) then {|s| - 1} else {};
      assert |Filter(s, p)| == |Filter(pre, p)| + |last| by {
        FilterConcat(pre, [x], p);
        assert [x][1..] == [];
      }
      assert IndicesWhere(s, p) == IndicesWhere(pre, p) + last by {
        assert forall i :: 0 <= i < |pre| ==> s[i] == pre[i];
      }
      assert IndicesWhere(pre, p) !! last;
    }
  }

  /** A prefix holds no element more often than the whole sequence. */
  lemma PrefixMultiset<T>(s: seq<T>, n: nat)
    requires n <= |s|
    ensures multiset(s[..n]) <= multiset(s)
  {
    assert s == s[..n] + s[n..];
  }

  /** `i` is the first index of `s` whose element satisfies `p`. */
  predicate IsFirst<T>(s: seq<T>, p: T -> bool, i: int) {
    0 <= i < |s| && p(s[i]) && forall j :: 0 <= j < i ==> !p(s[j])
  }

  /** `findIndex`: the first index satisfying `p`, or None where the source gets -1. */
  function FirstIndex<T>(s: seq<T>, p: T -> bool): (r: Option<nat>)
    ensures r.Some? ==> IsFirst(s, p, r.value)
    ensures r.None? <==> forall i :: 0 <= i < |s| ==> !p(s[i])
  {
    if |s| == 0 then None
    else if p(s[0]) then Some(0)
    else match FirstIndex(s[1..], p)
      case None => None
      case Some(i) => Some(i + 1)
  }

  /** `find`: the first element satisfying `p`. */
  function Find<T>(s: seq<T>, p: T -> bool): (r: Option<T>)
    ensures r.None? <==> forall i :: 0 <= i < |s| ==> !p(s[i])
    ensures r.Some? ==> exists i :: IsFirst(s, p, i) && s[i] == r.value
  {
    match FirstIndex(s, p)
    case None => None
    case Some(i) => Some(s[i])
  }

  /** Some element of `s` has key `k`. */
  predicate HasKey<T, K(==)>(s: seq<T>, key: T -> K, k: K) {
    exists i :: 0 <= i < |s| && key(s[i]) == k
  }

  /** `i` is the first index of `s` whose element has key `k`. */
  predicate IsFirstKey<T, K(==)>(s: seq<T>, key: T -> K, k: K, i: int) {
    0 <= i < |s| && key(s[i]) == k && forall j :: 0 <= j < i ==> key(s[j]) != k
  }

  /** No two elements of `s` share a key. */
  predicate KeysUnique<T, K(==)>(s: seq<T>, key: T -> K) {
    forall i, j :: 0 <= i < j < |s| ==> key(s[i]) != key(s[j])
  }

  /** Replace-or-append: `x` overwrites the first element with its key, keeping
      that position, or is pushed at the end when no element has its key. */
  function Upsert<T, K(==)>(s: seq<T>, x: T, key: T -> K): (r: seq<T>)
    ensures x in r
    ensures forall i :: IsFirstKey(s, key, key(x), i) ==> |r| == |s| && r == s[i := x]
    ensures !HasKey(s, key, key(x)) ==> r == s + [x]
  {
    match FirstIndex(s, y => key(y) == key(x))
    case Some(i) => assert s[i := x][i] == x; s[i := x]
    case None => s + [x]
  }

  /** Upsert keeps keys unique, and afterwards `x` is the only element with its key. */
  lemma UpsertKeepsKeysUnique<T, K>(s: seq<T>, x: T, key: T -> K)
    requires KeysUnique(s, key)
    ensures KeysUnique(Upsert(s, x, key), key)
    ensures forall i ::
      0 <= i < |Upsert(s, x, key)| && key(Upsert(s, x, key)[i]) == key(x) ==> Upsert(s, x, key)[i] == x
  {
    var r := Upsert(s, x, key);
    if HasKey(s, key, key(x)) {
      var i := FirstKeyIndex(s, key, key(x));
      assert r == s[i := x];
    } else {
      assert r == s + [x];
    }
  }

  /** When some element has key `k`, a first such index exists. */
  lemma FirstKeyIndex<T, K>(s: seq<T>, key: T -> K, k: K) returns (i: nat)
    requires HasKey(s, key, k)
    ensures IsFirstKey(s, key, k, i)
  {
    var p := y => key(y) == k;
    var j :| 0 <= j < |s| && key(s[j]) == k;
    assert p(s[j]);
    i := FirstIndex(s, p).value;
  }

  /** Two upserts with the same key leave only the second: the earlier one's
      slot is reused, so the result equals a single upsert of `y`. */
  lemma {:induction false} UpsertOverwrite<T, K>(s: seq<T>, x: T, y: T, key: T -> K)
    requires key(x) == key(y)
    ensures Upsert(Upsert(s, x, key), y, key) == Upsert(s, y, key)
  {
    var k := key(x);
    var r := Upsert(s, x, key);
    if HasKey(s, key, k) {
      var i := FirstKeyIndex(s, key, k);
      assert IsFirstKey(s, key, k, i);
      assert r == s[i := x];
      assert IsFirstKey(r, key, k, i);
      assert Upsert(r, y, key) == r[i := y] == s[i := y];
    } else {
      assert r == s + [x];
      assert IsFirstKey(r, key, k, |s|);
      assert Upsert(r, y, key) == (s + [x])[|s| := y] == s + [y];
    }
  }

  /** An element occurring at least twice sits at two distinct indices. */
  lemma {:induction false} TwoIndices<T>(s: seq<T>, x: T) returns (p: nat, q: nat)
    requires multiset(s)[x] >= 2
    ensures p < q < |s| && s[p] == x && s[q] == x
  {
    assert s == [s[0]] + s[1..];
    if s[0] == x {
      assert x in multiset(s[1..]);
      var q' :| 0 <= q' < |s[1..]| && s[1..][q'] == x;
      p, q := 0, q' + 1;
    } else {
      var p', q' := TwoIndices(s[1..], x);
      p, q := p' + 1, q' + 1;
    }
  }

  /** Reordering a list with unique keys keeps its keys unique. */
  lemma KeysUniquePermutation<T, K>(s: seq<T>, t: seq<T>, key: T -> K)
    requires KeysUnique(s, key) && multiset(s) == multiset(t)
    ensures KeysUnique(t, key)
  {
    forall i, j | 0 <= i < j < |t| ensures key(t[i]) != key(t[j]) {
      assert t[i] in multiset(s) && t[j] in multiset(s);
      if t[i] == t[j] {
        assert t[..j + 1] == t[..j] + [t[j]];
        assert t[i] in multiset(t[..j]);
        assert t == t[..j + 1] + t[j + 1..];
        var p, q := TwoIndices(s, t[i]);
        assert false;
      }
    }
  }
}

=== FILE: sorting.dfy ===
/** A stable sort by an integer key, as `Array.prototype.sort` performs it with a
    comparator of the form `(a, b) => key(a) - key(b)`: ascending by key, and
    elements with equal keys keep their original relative order. */
module Sorting {
  import Seqs

  /** Keys never decrease along `s`. */
  predicate SortedBy<T>(s: seq<T>, key: T -> int) {
    forall i, j :: 0 <= i < j < |s| ==> key(s[i]) <= key(s[j])
  }

  /** The elements of `s` whose key is `k`, in their order in `s`. */
  function WithKey<T>(s: seq<T>, key: T -> int, k: int): seq<T> {
    if |s| == 0 then []
    else (if key(s[0]) == k then [s[0]] else []) + WithKey(s[1..], key, k)
  }

  /** Places `x` just before the first element whose key is not smaller. */
  function Insert<T>(x: T, s: seq<T>, key: T -> int): seq<T> {
    if |s| == 0 then [x]
    else if key(x) <= key(s[0]) then [x] + s
    else [s[0]] + Insert(x, s[1..], key)
  }

  /** Inserting into a sorted sequence keeps it sorted and adds exactly `x`. */
  lemma {:induction false} InsertSorted<T>(x: T, s: seq<T>, key: T -> int)
    requires SortedBy(s, key)
    ensures SortedBy(Insert(x, s, key), key)
    ensures multiset(Insert(x, s, key)) == multiset(s) + multiset{x}
    ensures |Insert(x, s, key)| == |s| + 1
  {
    if |s| == 0 {
    } else if key(x) <= key(s[0]) {
      ConsSorted(x, s, key);
    } else {
      SortedTail(s, key);
      var rest := Insert(x, s[1..], key);
      InsertSorted(x, s[1..], key);
      assert s == [s[0]] + s[1..];
      forall i | 0 <= i < |rest| ensures key(s[0]) <= key(rest[i]) {
        assert rest[i] in multiset(rest);
        if rest[i] != x {
          assert rest[i] in multiset(s[1..]);
          var j :| 0 <= j < |s[1..]| && s[1..][j] == rest[i];
          assert s[j + 1] == rest[i];
        }
      }
      ConsSorted(s[0], rest, key);
    }
  }

  lemma SortedTail<T>(s: seq<T>, key: T -> int)
    requires SortedBy(s, key) && |s| > 0
    ensures SortedBy(s[1..], key)
  {
    forall i, j | 0 <= i < j < |s| - 1 ensures key(s[1..][i]) <= key(s[1..][j]) {
      assert s[1..][i] == s[i + 1] && s[1..][j] == s[j + 1];
    }
  }

  /** A head no larger than every key of a sorted tail keeps the sequence sorted. */
  lemma ConsSorted<T>(a: T, rest: seq<T>, key: T -> int)
    requires SortedBy(rest, key)
    requires forall i :: 0 <= i < |rest| ==> key(a) <= key(rest[i])
    ensures SortedBy([a] + rest, key)
  {
    var r := [a] + rest;
    forall i, j | 0 <= i < j < |r| ensures key(r[i]) <= key(r[j]) {
      assert r[j] == rest[j - 1];
      if i > 0 {
        assert r[i] == rest[i - 1];
      }
    }
  }

  function SortBy<T>(s: seq<T>, key: T -> int): (r: seq<T>)
    ensures SortedBy(r, key)
    ensures multiset(r) == multiset(s)
    ensures |r| == |s|
  {
    if |s| == 0 then []
    else
      assert s == [s[0]] + s[1..];
      var t := SortBy(s[1..], key);
      InsertSorted(s[0], t, key);
      Insert(s[0], t, key)
  }

  lemma SortByMembers<T>(s: seq<T>, key: T -> int)
    ensures forall x :: x in SortBy(s, key) <==> x in s
  {
    var r := SortBy(s, key);
    forall x ensures x in r <==> x in s {
      assert x in r <==> x in multiset(r);
      assert x in s <==> x in multiset(s);
    }
  }

  /** Insertion puts `x` in front of the elements that share its key. */
  lemma {:induction false} InsertWithKey<T>(x: T, s: seq<T>, key: T -> int, k: int)
    ensures WithKey(Insert(x, s, key), key, k)
            == (if key(x) == k then [x] else []) + WithKey(s, key, k)
  {
    var r := Insert(x, s, key);
    if |s| == 0 {
      assert r[1..] == [];
    } else if key(x) <= key(s[0]) {
      assert r[1..] == s;
    } else {
      var rest := Insert(x, s[1..], key);
      assert r[1..] == rest;
      InsertWithKey(x, s[1..], key, k);
      var w := WithKey(s[1..], key, k);
      if key(x) == k {
        assert key(s[0]) != k;
        assert WithKey(r, key, k) == WithKey(rest, key, k) == [x] + w;
        assert WithKey(s, key, k) == w;
      } else {
        assert WithKey(rest, key, k) == w;
      }
    }
  }

  /** Stability: for every key, sorting keeps the elements with that key in
      the order they had before. */
  lemma {:induction false} SortByStable<T>(s: seq<T>, key: T -> int, k: int)
    ensures WithKey(SortBy(s, key), key, k) == WithKey(s, key, k)
  {
    if |s| > 0 {
      SortByStable(s[1..], key, k);
      InsertWithKey(s[0], SortBy(s[1..], key), key, k);
    }
  }

  /** `i` is the first index of `s` whose element satisfies `p` and has key `k`. */
  predicate IsFirstWithKey<T>(s: seq<T>, p: T -> bool, key: T -> int, k: int, i: int) {
    0 <= i < |s| && p(s[i]) && key(s[i]) == k
    && forall j :: 0 <= j < i ==> !(p(s[j]) && key(s[j]) == k)
  }

  /** The first element with key `k` among those of `s` satisfying `p` is the
      first element of `s` satisfying both. */
  lemma {:induction false} FirstWithKeyOfFilter<T(!new)>(s: seq<T>, p: T -> bool, key: T -> int, k: int)
    returns (i: nat)
    requires |WithKey(Seqs.Filter(s, p), key, k)| > 0
    ensures IsFirstWithKey(s, p, key, k, i)
    ensures s[i] == WithKey(Seqs.Filter(s, p), key, k)[0]
  {
    var f := Seqs.Filter(s, p);
    var rest := Seqs.Filter(s[1..], p);
    assert s == [s[0]] + s[1..];
    if p(s[0]) && key(s[0]) == k {
      assert f == [s[0]] + rest;
      assert f[1..] == rest;
      i := 0;
    } else {
      if p(s[0]) {
        assert f == [s[0]] + rest;
        assert f[1..] == rest;
      } else {
        assert f == rest;
      }
      assert WithKey(f, key, k) == WithKey(rest, key, k);
      var i' := FirstWithKeyOfFilter(s[1..], p, key, k);
      i := i' + 1;
      assert s[i] == s[1..][i'];
      assert forall j :: 1 <= j < i ==> s[j] == s[1..][j - 1];
    }
  }
}

=== FILE: storage.dfy ===
/** The session store: the persisted workout sessions and body-stat records,
    their upserts, and the statistics derived from the session history.

    Calendar dates are day numbers counted from 1970-01-01 (day 0, a Thursday);
    "today" is always a parameter. Every query takes the session list that
    `getWorkouts()` would return. */
module Storage {
  import opened Wrappers
  import Seqs
  import Sorting
  import Workouts

  type Day = int

  datatype SetLog = SetLog(reps: int, weight: real, completed: bool)

  datatype ExerciseLog = ExerciseLog(exerciseId: string, sets: seq<SetLog>)

  datatype Session = Session(
    id: string,
    date: Day,
    dayType: string,
    exercises: seq<ExerciseLog>,
    completed: bool)

  datatype BodyStats = BodyStats(date: Day, weight: real, waist: real)

  /** The two storage slots. A slot is None when nothing can be read from it:
      no browser window, or no (or an empty) value under its key. */
  datatype Store = Store(workouts: Option<seq<Session>>, bodyStats: Option<seq<BodyStats>>)

  /** A store that has never been written. */
  const EmptyStore := Store(None, None)

  /** `getWorkouts`: the stored sessions, or the empty list. */
  function StoredWorkouts(st: Store): seq<Session> {
    st.workouts.GetOr([])
  }

  /** `getBodyStats`: the stored records, or the empty list. */
  function BodyStatsList(st: Store): seq<BodyStats> {
    st.bodyStats.GetOr([])
  }

  function SessionId(w: Session): string { w.id }

  function StatsDate(b: BodyStats): Day { b.date }

  /** `saveWorkout`: upsert by id. A session whose id is already stored replaces
      the first such entry in place; otherwise it is appended. The body-stat
      slot is untouched. */
  function SaveWorkout(st: Store, w: Session): (st': Store)
    ensures st'.bodyStats == st.bodyStats
    ensures var before, after := StoredWorkouts(st), StoredWorkouts(st');
      && w in after
      && (forall i :: Seqs.IsFirstKey(before, SessionId, w.id, i) ==> |after| == |before| && after == before[i := w])
      && (!Seqs.HasKey(before, SessionId, w.id) ==> |after| == |before| + 1 && after == before + [w])
  {
    st.(workouts := Some(Seqs.Upsert(StoredWorkouts(st), w, SessionId)))
  }

  /** Saving keeps session ids unique, and the saved session is then the only
      one stored under its id. */
  lemma SaveWorkoutKeepsIdsUnique(st: Store, w: Session)
    requires Seqs.KeysUnique(StoredWorkouts(st), SessionId)
    ensures Seqs.KeysUnique(StoredWorkouts(SaveWorkout(st, w)), SessionId)
    ensures forall i :: 0 <= i < |StoredWorkouts(SaveWorkout(st, w))| && StoredWorkouts(SaveWorkout(st, w))[i].id == w.id
                        ==> StoredWorkouts(SaveWorkout(st, w))[i] == w
  {
    Seqs.UpsertKeepsKeysUnique(StoredWorkouts(st), w, SessionId);
  }

  /** Saving two sessions with the same id leaves the store as if only the
      second had been saved; in particular saving a session twice is the same
      as saving it once. */
  lemma SaveWorkoutOverwrite(st: Store, w1: Session, w2: Session)
    requires w1.id == w2.id
    ensures SaveWorkout(SaveWorkout(st, w1), w2) == SaveWorkout(st, w2)
    ensures SaveWorkout(SaveWorkout(st, w2), w2) == SaveWorkout(st, w2)
  {
    Seqs.UpsertOverwrite(StoredWorkouts(st), w1, w2, SessionId);
    Seqs.UpsertOverwrite(StoredWorkouts(st), w2, w2, SessionId);
  }

  /** `saveBodyStats`: upsert by date, with the same replace-or-append rule.
      The session slot is untouched. */
  function SaveBodyStats(st: Store, b: BodyStats): (st': Store)
    ensures st'.workouts == st.workouts
    ensures var before, after := BodyStatsList(st), BodyStatsList(st');
      && b in after
      && (forall i :: Seqs.IsFirstKey(before, StatsDate, b.date, i) ==> |after| == |before| && after == before[i := b])
      && (!Seqs.HasKey(before, StatsDate, b.date) ==> |after| == |before| + 1 && after == before + [b])
  {
    st.(bodyStats := Some(Seqs.Upsert(BodyStatsList(st), b, StatsDate)))
  }

  /** Dates unique before a save stay unique after it, and the saved record
      is the only one of its date. */
  lemma SaveBodyStatsKeepsDatesUnique(st: Store, b: BodyStats)
    requires Seqs.KeysUnique(BodyStatsList(st), StatsDate)
    ensures Seqs.KeysUnique(BodyStatsList(SaveBodyStats(st, b)), StatsDate)
    ensures forall i :: 0 <= i < |BodyStatsList(SaveBodyStats(st, b))| && BodyStatsList(SaveBodyStats(st, b))[i].date == b.date
                        ==> BodyStatsList(SaveBodyStats(st, b))[i] == b
  {
    Seqs.UpsertKeepsKeysUnique(BodyStatsList(st), b, StatsDate);
  }

  lemma SaveBodyStatsOverwrite(st: Store, b1: BodyStats, b2: BodyStats)
    requires b1.date == b2.date
    ensures SaveBodyStats(SaveBodyStats(st, b1), b2) == SaveBodyStats(st, b2)
  {
    Seqs.UpsertOverwrite(BodyStatsList(st), b1, b2, StatsDate);
  }

  /** `getWorkoutsByDate`: the first stored session on `date`, completed or not. */
  function WorkoutByDate(ws: seq<Session>, date: Day): (r: Option<Session>)
    ensures r.None? <==> forall i :: 0 <= i < |ws| ==> ws[i].date != date
    ensures r.Some? ==> exists i :: 0 <= i < |ws| && ws[i] == r.value && ws[i].date == date
                                    && forall j :: 0 <= j < i ==> ws[j].date != date
  {
    Seqs.Find(ws, (w: Session) => w.date == date)
  }

  predicate IsCompleted(w: Session) { w.completed }

  /** The completed sessions, in store order. */
  function CompletedSessions(ws: seq<Session>): (r: seq<Session>)
    ensures |r| <= |ws|
    ensures forall w :: w in r <==> w in ws && w.completed
  {
    Seqs.FilterMembers(ws, IsCompleted);
    Seqs.Filter(ws, IsCompleted)
  }

  /** Sort key that puts later dates first: the comparator
      `(a, b) => b.date - a.date` sorts ascending by `-date`. */
  function NewestFirstKey(w: Session): int { -w.date }

  predicate NewestFirst(s: seq<Session>) {
    forall i, j :: 0 <= i < j < |s| ==> s[i].date >= s[j].date
  }

  /** The same order over body-stat records. */
  predicate StatsNewestFirst(s: seq<BodyStats>) {
    forall i, j :: 0 <= i < j < |s| ==> s[i].date >= s[j].date
  }

  function OfType(dayType: string): Session -> bool {
    (w: Session) => w.dayType == dayType && w.completed
  }

  /** `getWorkoutsByType`: exactly the completed sessions of one plan type,
      each as often as it is stored, newest first. */
  function WorkoutsByType(ws: seq<Session>, dayType: string): (r: seq<Session>)
    ensures NewestFirst(r)
    ensures forall w :: multiset(r)[w] == if w.completed && w.dayType == dayType then multiset(ws)[w] else 0
    ensures forall w :: w in r <==> w in ws && w.completed && w.dayType == dayType
  {
    var f := Seqs.Filter(ws, OfType(dayType));
    Seqs.FilterMultiset(ws, OfType(dayType));
    var r := Sorting.SortBy(f, NewestFirstKey);
    assert forall w :: w in r <==> w in multiset(f);
    r
  }

  /** `getLastWorkoutByType`: absent exactly when no completed session of the
      type is stored; otherwise a stored completed session of that type that no
      other one post-dates. */
  function LastWorkoutByType(ws: seq<Session>, dayType: string): (r: Option<Session>)
    ensures r.None? <==> forall i :: 0 <= i < |ws| ==> !(ws[i].completed && ws[i].dayType == dayType)
    ensures r.Some? ==> r.value in ws && r.value.completed && r.value.dayType == dayType
    ensures r.Some? ==> forall i :: 0 <= i < |ws| && ws[i].completed && ws[i].dayType == dayType
                                    ==> ws[i].date <= r.value.date
  {
    var byType := WorkoutsByType(ws, dayType);
    if |byType| == 0 then
      assert forall i :: 0 <= i < |ws| ==> !(ws[i].completed && ws[i].dayType == dayType) by {
        forall i | 0 <= i < |ws| ensures !(ws[i].completed && ws[i].dayType == dayType) {
          assert ws[i] in byType <==> ws[i] in ws && ws[i].completed && ws[i].dayType == dayType;
        }
      }
      None
    else
      var last := byType[0];
      assert last in byType;
      NewestFirstHead(byType);
      assert forall i :: 0 <= i < |ws| && ws[i].completed && ws[i].dayType == dayType ==> ws[i].date <= last.date by {
        forall i | 0 <= i < |ws| && ws[i].completed && ws[i].dayType == dayType ensures ws[i].date <= last.date {
          assert ws[i] in byType;
        }
      }
      Some(last)
  }

  /** The head of a newest-first list is at least as late as every element. */
  lemma NewestFirstHead(s: seq<Session>)
    requires NewestFirst(s) && |s| > 0
    ensures forall w :: w in s ==> w.date <= s[0].date
  {
    forall w | w in s ensures w.date <= s[0].date {
      var k :| 0 <= k < |s| && s[k] == w;
    }
  }

  /** The per-type lists of two different plan types share no session. */
  lemma WorkoutsByTypeDisjoint(ws: seq<Session>, t: Workouts.DayType, u: Workouts.DayType)
    requires t != u
    ensures forall w :: w in WorkoutsByType(ws, Workouts.DayTypeName(t))
                        ==> w !in WorkoutsByType(ws, Workouts.DayTypeName(u))
  {
    Workouts.DayTypeNameInjective(t, u);
  }

  /** Among the latest sessions of the type, the stable sort leaves the one
      stored first at the head, so that is the one returned. */
  lemma LastWorkoutTieBreak(ws: seq<Session>, dayType: string)
    requires exists i :: 0 <= i < |ws| && ws[i].completed && ws[i].dayType == dayType
    ensures LastWorkoutByType(ws, dayType).Some?
    ensures var last := LastWorkoutByType(ws, dayType).value;
      exists i :: 0 <= i < |ws| && ws[i] == last
        && forall j :: 0 <= j < i ==> !(ws[j].completed && ws[j].dayType == dayType && ws[j].date == last.date)
  {
    var j :| 0 <= j < |ws| && ws[j].completed && ws[j].dayType == dayType;
    var f := Seqs.Filter(ws, OfType(dayType));
    var sorted := Sorting.SortBy(f, NewestFirstKey);
    assert WorkoutsByType(ws, dayType) == sorted;
    assert ws[j] in sorted;
    var last := sorted[0];
    assert LastWorkoutByType(ws, dayType) == Some(last);
    var k := NewestFirstKey(last);
    Sorting.SortByStable(f, NewestFirstKey, k);
    assert Sorting.WithKey(sorted, NewestFirstKey, k)[0] == last;
    var i := Sorting.FirstWithKeyOfFilter(ws, OfType(dayType), NewestFirstKey, k);
    assert ws[i] == last;
    NoEarlierLatest(ws, dayType, last, i);
  }

  /** No session before index `i` is completed, of the type and dated like `last`. */
  lemma NoEarlierLatest(ws: seq<Session>, dayType: string, last: Session, i: nat)
    requires Sorting.IsFirstWithKey(ws, OfType(dayType), NewestFirstKey, NewestFirstKey(last), i)
    ensures forall q :: 0 <= q < i ==> !(ws[q].completed && ws[q].dayType == dayType && ws[q].date == last.date)
  {
    forall q | 0 <= q < i
      ensures !(ws[q].completed && ws[q].dayType == dayType && ws[q].date == last.date)
    {
      assert !(OfType(dayType)(ws[q]) && NewestFirstKey(ws[q]) == NewestFirstKey(last));
    }
  }

  /** Some completed session is dated `d`. */
  predicate HasCompletedOn(ws: seq<Session>, d: Day) {
    exists w :: w in ws && w.completed && w.date == d
  }

  /** The scan window of `getStreak`, in days. */
  const StreakWindow: nat := 30

  /** `n` is the streak as of `today`: today counts 1 when it has a completed
      session and 0 otherwise, and the rest of `n` is the run of consecutive
      days with a completed session ending yesterday, capped at the window. */
  predicate IsStreak(ws: seq<Session>, today: Day, n: int) {
    var first := if HasCompletedOn(ws, today) then 1 else 0;
    var run := n - first;
    && 0 <= run <= StreakWindow - 1
    && (forall d :: today - run <= d < today ==> HasCompletedOn(ws, d))
    && (run == StreakWindow - 1 || !HasCompletedOn(ws, today - (run + 1)))
  }

  /** The characterisation determines the streak. */
  lemma {:induction false} StreakUnique(ws: seq<Session>, today: Day, a: int, b: int)
    requires IsStreak(ws, today, a) && IsStreak(ws, today, b)
    ensures a == b
  {
  }

  /** Sessions today and on the two days before, none earlier: streak 3. */
  lemma StreakTodayAndTwoBefore(ws: seq<Session>, today: Day)
    requires forall d :: HasCompletedOn(ws, d) <==> today - 2 <= d <= today
    ensures IsStreak(ws, today, 3)
    ensures forall n :: IsStreak(ws, today, n) ==> n == 3
  {
    forall n | IsStreak(ws, today, n) ensures n == 3 {
      StreakUnique(ws, today, n, 3);
    }
  }

  /** Nothing yet today but a session on each of the five days before: streak 5. */
  lemma StreakSkipsToday(ws: seq<Session>, today: Day)
    requires forall d :: HasCompletedOn(ws, d) <==> today - 5 <= d <= today - 1
    ensures IsStreak(ws, today, 5)
    ensures forall n :: IsStreak(ws, today, n) ==> n == 5
  {
    forall n | IsStreak(ws, today, n) ensures n == 5 {
      StreakUnique(ws, today, n, 5);
    }
  }

  /** Sessions today and two days ago but not yesterday: streak 1. */
  lemma StreakStopsAtGap(ws: seq<Session>, today: Day)
    requires forall d :: HasCompletedOn(ws, d) <==> d == today || d == today - 2
    ensures IsStreak(ws, today, 1)
    ensures forall n :: IsStreak(ws, today, n) ==> n == 1
  {
    forall n | IsStreak(ws, today, n) ensures n == 1 {
      StreakUnique(ws, today, n, 1);
    }
  }

  /** Sessions on all 30 days of the window ending today report the window,
      whatever lies before it. */
  lemma StreakCappedAtWindow(ws: seq<Session>, today: Day)
    requires forall d :: today - (StreakWindow - 1) <= d <= today ==> HasCompletedOn(ws, d)
    ensures IsStreak(ws, today, StreakWindow)
    ensures forall n :: IsStreak(ws, today, n) ==> n == StreakWindow
  {
    forall n | IsStreak(ws, today, n) ensures n == StreakWindow {
      StreakUnique(ws, today, n, StreakWindow);
    }
  }

  /** `getStreak`: scan back from today over at most 30 days. A missing
      session today is skipped; the first missing day after today ends the scan. */
  method GetStreak(ws: seq<Session>, today: Day) returns (streak: nat)
    ensures IsStreak(ws, today, streak)
    ensures streak <= StreakWindow
    ensures (forall i :: 0 <= i < |ws| ==> !ws[i].completed) ==> streak == 0
  {
    var done := CompletedSessions(ws);
    if |done| == 0 {
      assert forall d :: !HasCompletedOn(ws, d);
      return 0;
    }
    ghost var first := if HasCompletedOn(ws, today) then 1 else 0;
    streak := 0;
    var i := 0;
    while i < StreakWindow
      invariant 0 <= i <= StreakWindow
      invariant i == 0 ==> streak == 0
      invariant i > 0 ==> streak == first + (i - 1)
      invariant forall d :: today - i < d < today ==> HasCompletedOn(ws, d)
      decreases StreakWindow - i
    {
      var hasWorkout := exists w :: w in done && w.date == today - i;
      assert hasWorkout <==> HasCompletedOn(ws, today - i);
      if i == 0 && !hasWorkout {
        // today not yet trained does not break the streak
      } else if hasWorkout {
        streak := streak + 1;
      } else if i > 0 {
        break;
      }
      i := i + 1;
    }
    assert (forall j :: 0 <= j < |ws| ==> !ws[j].completed) ==> !HasCompletedOn(ws, today - 1);
  }

  /** The weekday of a day number, 0 = Sunday .. 6 = Saturday. */
  function Weekday(d: Day): int { (d + 4) % 7 }

  /** The most recent Sunday on or before `today`. */
  function WeekStart(today: Day): (s: Day)
    ensures s <= today < s + 7
    ensures Weekday(s) == 0
  {
    today - Weekday(today)
  }

  function OnOrAfter(start: Day): Session -> bool {
    (w: Session) => w.date >= start
  }

  /** `getWorkoutsThisWeek`: the completed sessions dated on or after this
      week's Sunday. */
  function WorkoutsThisWeek(ws: seq<Session>, today: Day): (n: nat)
    ensures n <= |CompletedSessions(ws)|
    ensures n == |CompletedSessions(ws)| <==> forall w :: w in ws && w.completed ==> w.date >= WeekStart(today)
  {
    var done := CompletedSessions(ws);
    var r := Seqs.Filter(done, OnOrAfter(WeekStart(today)));
    Seqs.FilterKeepsAll(done, OnOrAfter(WeekStart(today)));
    Seqs.FilterMembers(done, OnOrAfter(WeekStart(today)));
    assert (forall i :: 0 <= i < |done| ==> done[i].date >= WeekStart(today))
       <==> forall w :: w in ws && w.completed ==> w.date >= WeekStart(today) by {
      assert forall w :: w in done <==> w in ws && w.completed;
    }
    |r|
  }

  /** Storing one more session raises the weekly count by one exactly when that
      session is completed and dated in the current week. */
  lemma {:induction false} WorkoutsThisWeekAppend(ws: seq<Session>, w: Session, today: Day)
    ensures WorkoutsThisWeek(ws + [w], today)
            == WorkoutsThisWeek(ws, today) + (if w.completed && w.date >= WeekStart(today) then 1 else 0)
  {
    Seqs.FilterConcat(ws, [w], IsCompleted);
    var p := OnOrAfter(WeekStart(today));
    Seqs.FilterConcat(CompletedSessions(ws), Seqs.Filter([w], IsCompleted), p);
    assert Seqs.Filter([w], IsCompleted) == if w.completed then [w] else [];
  }

  /** A session dated on this week's Sunday counts, one dated the Saturday
      before does not. */
  lemma WorkoutsThisWeekBoundary(today: Day, sunday: Session, saturday: Session)
    requires sunday.completed && sunday.date == WeekStart(today)
    requires saturday.completed && saturday.date == WeekStart(today) - 1
    ensures Weekday(sunday.date) == 0 && Weekday(saturday.date) == 6
    ensures WorkoutsThisWeek([sunday], today) == 1
    ensures WorkoutsThisWeek([saturday], today) == 0
  {
    WorkoutsThisWeekAppend([], sunday, today);
    WorkoutsThisWeekAppend([], saturday, today);
    assert [] + [sunday] == [sunday];
    assert [] + [saturday] == [saturday];
  }

  /** A store never written reads as two empty lists, and every statistic over
      the empty history is absent or zero. */
  lemma EmptyStoreIsEmpty(today: Day, dayType: string)
    ensures StoredWorkouts(EmptyStore) == [] && BodyStatsList(EmptyStore) == []
    ensures LastWorkoutByType(StoredWorkouts(EmptyStore), dayType) == None
    ensures WorkoutsThisWeek(StoredWorkouts(EmptyStore), today) == 0
    ensures IsStreak(StoredWorkouts(EmptyStore), today, 0)
  {
  }
}

=== FILE: workouts.dfy ===
/** The compiled-in weekly plan: four day plans, each scheduled on one weekday
    (0 = Sunday .. 6 = Saturday), and the two lookups into it. */
module Workouts {
  import opened Wrappers
  import Seqs

  datatype DayType = UpperStrength | LowerHypertrophy | UpperHypertrophy | LowerStrength

  datatype Exercise = Exercise(
    id: string,
    name: string,
    muscleGroup: string,
    defaultSets: int,
    defaultReps: string)

  datatype DayPlan = DayPlan(id: DayType, name: string, day: int, exercises: seq<Exercise>)

  /** The string a plan type is stored under in a session's `dayType`. */
  function DayTypeName(t: DayType): string {
    match t
    case UpperStrength => "upper-strength"
    case LowerHypertrophy => "lower-hypertrophy"
    case UpperHypertrophy => "upper-hypertrophy"
    case LowerStrength => "lower-strength"
  }

  /** Distinct plan types are stored under distinct strings. */
  lemma DayTypeNameInjective(t: DayType, u: DayType)
    ensures DayTypeName(t) == DayTypeName(u) <==> t == u
  {
  }

  /** The plan lists at least one exercise, every exercise asks for at least
      one set, and no two exercises of the plan share an id. */
  predicate WellFormedPlan(p: DayPlan) {
    && |p.exercises| > 0
    && (forall i :: 0 <= i < |p.exercises| ==> p.exercises[i].defaultSets > 0)
    && (forall i, j :: 0 <= i < j < |p.exercises| ==> p.exercises[i].id != p.exercises[j].id)
  }

  predicate HasPlanFor(c: seq<DayPlan>, t: DayType) {
    exists i :: 0 <= i < |c| && c[i].id == t
  }

  /** Weekdays and plan ids are pairwise distinct, every plan type has a plan,
      and every plan is well formed. */
  predicate WellFormedCatalog(c: seq<DayPlan>) {
    && (forall i, j :: 0 <= i < j < |c| ==> c[i].day != c[j].day && c[i].id != c[j].id)
    && (forall t: DayType :: HasPlanFor(c, t))
    && (forall i :: 0 <= i < |c| ==> 0 <= c[i].day <= 6 && WellFormedPlan(c[i]))
  }

  function UpperStrengthPlan(): (p: DayPlan)
    ensures WellFormedPlan(p) && p.id == UpperStrength && p.day == 1
  {
    DayPlan(UpperStrength, "Upper Strength", 1, [
      Exercise("bench-press", "Bench Press", "chest", 4, "5"),
      Exercise("pull-ups", "Pull-Ups", "back", 4, "6"),
      Exercise("overhead-press", "Overhead Press", "shoulders", 3, "6"),
      Exercise("barbell-rows", "Barbell Rows", "back", 3, "8"),
      Exercise("plank", "Plank", "core", 3, "45s")])
  }

  function LowerHypertrophyPlan(): (p: DayPlan)
    ensures WellFormedPlan(p) && p.id == LowerHypertrophy && p.day == 2
  {
    DayPlan(LowerHypertrophy, "Lower Hypertrophy", 2, [
      Exercise("bulgarian-split-squats", "Bulgarian Split Squats", "legs", 3, "10/leg"),
      Exercise("romanian-deadlift", "Romanian Deadlift", "legs", 3, "10"),
      Exercise("leg-press", "Leg Press", "legs", 3, "12"),
      Exercise("calf-raises", "Calf Raises", "legs", 3, "15"),
      Exercise("incline-walk", "Incline Walk", "cardio", 1, "20min")])
  }

  function UpperHypertrophyPlan(): (p: DayPlan)
    ensures WellFormedPlan(p) && p.id == UpperHypertrophy && p.day == 4
  {
    DayPlan(UpperHypertrophy, "Upper Hypertrophy", 4, [
      Exercise("incline-db-press", "Incline DB Press", "chest", 3, "10"),
      Exercise("lat-pulldown", "Lat Pulldown", "back", 3, "10"),
      Exercise("lateral-raises", "Lateral Raises", "shoulders", 3, "12"),
      Exercise("seated-rows", "Seated Rows", "back", 3, "10"),
      Exercise("curls-triceps", "Curls + Triceps Superset", "arms", 3, "12")])
  }

  function LowerStrengthPlan(): (p: DayPlan)
    ensures WellFormedPlan(p) && p.id == LowerStrength && p.day == 5
  {
    DayPlan(LowerStrength, "Lower Strength", 5, [
      Exercise("back-squats", "Back Squats", "legs", 4, "5"),
      Exercise("romanian-deadlift-2", "Romanian Deadlift", "legs", 3, "6"),
      Exercise("walking-lunges", "Walking Lunges", "legs", 3, "10/leg"),
      Exercise("hanging-knee-raises", "Hanging Knee Raises", "core", 3, "12")])
  }

  /** The `workouts` table, in declaration order. */
  function Catalog(): (c: seq<DayPlan>)
    ensures WellFormedCatalog(c)
    ensures |c| == 4
    ensures c[0].day == 1 && c[1].day == 2 && c[2].day == 4 && c[3].day == 5
  {
    var c := [UpperStrengthPlan(), LowerHypertrophyPlan(), UpperHypertrophyPlan(), LowerStrengthPlan()];
    ScheduleWellFormed(c);
    c
  }

  /** Four well-formed plans, one per plan type, on Monday, Tuesday, Thursday
      and Friday, make a well-formed catalog. */
  lemma ScheduleWellFormed(c: seq<DayPlan>)
    requires |c| == 4
    requires c[0].id == UpperStrength && c[0].day == 1
    requires c[1].id == LowerHypertrophy && c[1].day == 2
    requires c[2].id == UpperHypertrophy && c[2].day == 4
    requires c[3].id == LowerStrength && c[3].day == 5
    requires WellFormedPlan(c[0]) && WellFormedPlan(c[1]) && WellFormedPlan(c[2]) && WellFormedPlan(c[3])
    ensures WellFormedCatalog(c)
  {
    assert HasPlanFor(c, UpperStrength) && HasPlanFor(c, LowerHypertrophy);
    assert HasPlanFor(c, UpperHypertrophy) && HasPlanFor(c, LowerStrength);
  }

  lemma CatalogPlanWellFormed(p: DayPlan)
    requires p in Catalog()
    ensures WellFormedPlan(p)
  {
    var c := Catalog();
    var i :| 0 <= i < |c| && c[i] == p;
  }

  /** `getTodayWorkout` with the weekday passed in: the plan scheduled on `day`,
      or None on a rest day. */
  function PlanForWeekday(day: int): (r: Option<DayPlan>)
    ensures r.Some? <==> day in {1, 2, 4, 5}
    ensures r.Some? ==> r.value in Catalog() && r.value.day == day
  {
    Seqs.Find(Catalog(), (p: DayPlan) => p.day == day)
  }

  /** `getWorkoutById`: never absent for a valid plan type. */
  function PlanById(id: DayType): (r: Option<DayPlan>)
    ensures r.Some? && r.value in Catalog() && r.value.id == id
  {
    Seqs.Find(Catalog(), (p: DayPlan) => p.id == id)
  }

  /** A weekday has a plan only if exactly one catalog entry is scheduled on it,
      and that entry is the one returned. */
  lemma PlanForWeekdayUnique(day: int, i: int)
    requires 0 <= i < |Catalog()| && Catalog()[i].day == day
    ensures PlanForWeekday(day) == Some(Catalog()[i])
  {
  }

  /** Every plan type names exactly one catalog entry. */
  lemma PlanByIdUnique(id: DayType, i: int)
    requires 0 <= i < |Catalog()| && Catalog()[i].id == id
    ensures PlanById(id) == Some(Catalog()[i])
  {
  }

  /** The home page's planned-set total: the sum of `defaultSets` over the day's
      exercises, or 0 when there is no plan for the day. */
  function PlannedSets(exercises: seq<Exercise>): int {
    if |exercises| == 0 then 0 else exercises[0].defaultSets + PlannedSets(exercises[1..])
  }

  function TodayPlannedSets(day: int): (r: int)
    ensures r > 0 <==> PlanForWeekday(day).Some?
    ensures r >= 0
  {
    match PlanForWeekday(day)
    case None => 0
    case Some(p) =>
      CatalogPlanWellFormed(p);
      PlannedSetsPositive(p.exercises);
      PlannedSets(p.exercises)
  }

  lemma UpperStrengthSets()
    ensures PlannedSets(UpperStrengthPlan().exercises) == 17
  {
  }

  lemma LowerHypertrophySets()
    ensures PlannedSets(LowerHypertrophyPlan().exercises) == 13
  {
  }

  lemma UpperHypertrophySets()
    ensures PlannedSets(UpperHypertrophyPlan().exercises) == 15
  {
  }

  lemma LowerStrengthSets()
    ensures PlannedSets(LowerStrengthPlan().exercises) == 13
  {
  }

  /** The planned-set totals per weekday: 4+4+3+3+3 on Monday, 3+3+3+3+1 on
      Tuesday, 3+3+3+3+3 on Thursday, 4+3+3+3 on Friday, and 0 on rest days. */
  lemma TodayPlannedSetsValues(day: int)
    ensures TodayPlannedSets(day)
            == if day == 1 then 17 else if day == 2 then 13
               else if day == 4 then 15 else if day == 5 then 13 else 0
  {
    var c := Catalog();
    if day == 1 {
      assert c[0] == UpperStrengthPlan();
      UpperStrengthSets();
      PlanForWeekdayUnique(day, 0);
    } else if day == 2 {
      assert c[1] == LowerHypertrophyPlan();
      LowerHypertrophySets();
      PlanForWeekdayUnique(day, 1);
    } else if day == 4 {
      assert c[2] == UpperHypertrophyPlan();
      UpperHypertrophySets();
      PlanForWeekdayUnique(day, 2);
    } else if day == 5 {
      assert c[3] == LowerStrengthPlan();
      LowerStrengthSets();
      PlanForWeekdayUnique(day, 3);
    }
  }

  lemma {:induction false} PlannedSetsPositive(exercises: seq<Exercise>)
    requires forall i :: 0 <= i < |exercises| ==> exercises[i].defaultSets > 0
    ensures PlannedSets(exercises) >= |exercises|
  {
    if |exercises| > 0 {
      PlannedSetsPositive(exercises[1..]);
    }
  }
}

=== FILE: wrappers.dfy ===
/** Optional values: the model's stand-in for `undefined` / `null` results. */
module Wrappers {

  datatype Option<+T> = None | Some(value: T) {

    /** The wrapped value, or `default` when there is none. */
    function GetOr(default: T): T {
      match this
      case Some(v) => v
      case None => default
    }
  }
}
